=== FILE: README.md ===
# Bookstore router: registration and catalog queries

A model of the public router of a tutorial bookstore API
(`final_project/router/general.js`). The router keeps a registry of users
that only grows, and answers queries over a fixed catalog of books. A book
has an author, a title and a map of reviews, and is stored under an
identifier called its ISBN. The model covers:

- **Registration** (`Registry`). `POST /register` checks that the username is
  given, then that the password is given, then that no registered user has
  that username. Only a request that passes all three checks appends a user.
  `Replay` runs a sequence of registrations one after another. It is used to
  show that two successes never share a username.
- **Catalog** (`Catalog`). The books object is a sequence of key/book entries
  in `Object.keys` iteration order. `Lookup` models `books[key]`. `Select`
  models the `forEach` filter of the author and title routes, and
  `CollectMatches` is that loop written as a loop.
- **Numeric keys** (`IntKey`). `books[parseInt(isbn)]` reads the property
  named by the decimal text of the parsed number. The model restricts
  `parseInt` to the leading run of decimal digits.
- **Routes** (`Routes`). These are the plain `/isbn`, `/review`, `/author` and
  `/title` routes, and the promise and async-await variants of the ISBN,
  author and title routes. The two variant styles run the same body and
  respond in the same way, so each pair is modelled by one function.

The catalog is a parameter because its contents are not part of this model.
Every function is pure. Registration returns the reply together with the new
registry.

Identifier lookups and route parameters:

- Only `/isbn-promise` and `/isbn-async` fall back to `books[parseInt(isbn)]`
  when the literal key is missing (general.js:168, 196).
- `/isbn` and `/review` read only the literal key (general.js:40, 89).
- Route parameters are always strings, so a numeric identifier reaches the
  router as its text.

## Model

| member | source | states |
|---|---|---|
| Registry.FindUser | final_project/router/general.js:22 | Finds a user exactly when some registered user has that name. The user found is the first one in registry order that has it. |
| Registry.Register | final_project/router/general.js:8-29 | A missing or empty username gives 400 "Username is required", whatever the password. Otherwise a missing or empty password gives 400 "Password is required". Otherwise a name already taken gives 400 "Username already exists". Every failure leaves the registry unchanged. A 201 "User registered successfully" happens exactly when all three checks pass, and appends exactly the one new user. Unique usernames stay unique. |
| Registry.RegisterTwiceFails | final_project/router/general.js:22-28 | After a successful registration, registering the same name again with any non-empty password fails as a duplicate and changes nothing. |
| Registry.Replay | final_project/router/general.js:22-27 | Running requests in sequence gives one reply per request. Earlier users are never changed, because the old registry is a prefix of the new one. Unique usernames stay unique. |
| Registry.TakenNameNeverSucceeds | final_project/router/general.js:22-24 | Once a name is registered, no later request for it succeeds, however many other requests come between. |
| Registry.AtMostOneSuccessPerName | final_project/router/general.js:22-27 | Two successful registrations in one sequence of requests never carry the same username. |
| Catalog.Lookup | final_project/router/general.js:40-41 | `books[key]` finds a book exactly when some entry has that key. The book found is stored under that key. When keys are distinct, it is the book of every entry with that key. |
| Catalog.Select | final_project/router/general.js:50-57 | The filter is never longer than the catalog, and starts with the first entry when that entry matches. Its full meaning is given by the lemmas about it: it keeps exactly the entries whose field equals the value, unchanged and in catalog order (SelectIsSelection), and under distinct keys it is the only such selection (SelectIsUnique). |
| Catalog.SelectIsSelection | final_project/router/general.js:50-57 | The filter keeps exactly the entries whose field equals the value, unchanged, and keeps them in catalog order (as a subsequence). It is non-empty exactly when some entry matches. |
| Catalog.SelectIsUnique | final_project/router/general.js:50-57 | When catalog keys are distinct, any order-preserving selection of exactly the matching entries equals the filter's result. |
| Catalog.SelectIsSubMap | final_project/router/general.js:53-57 | Read as an object, the filter's result holds a key's catalog book exactly when that book matches, and holds nothing else. |
| Catalog.CollectMatches | final_project/router/general.js:50-57 | The `forEach` loop that copies each matching book into the result object computes the filter. |
| IntKey.LeadingDigits | final_project/router/general.js:168 | The digits `parseInt` reads: the longest prefix of the text made only of digits. |
| IntKey.ParseInt | final_project/router/general.js:168 | The result is NaN exactly when the text is empty or does not start with a digit. |
| IntKey.Decimal | final_project/router/general.js:168 | The property name of a number is canonical decimal text: non-empty, all digits, and no leading zero unless it is "0". |
| IntKey.NumberKey | final_project/router/general.js:168-169 | The key `books[parseInt(isbn)]` reads is "NaN" exactly when `parseInt` reads no digit. Otherwise it is canonical decimal text. |
| IntKey.DecimalValue | final_project/router/general.js:168 | The decimal text of a number denotes that number. |
| IntKey.ParseDecimal | final_project/router/general.js:168 | Parsing the decimal text of a number gives the number back. |
| IntKey.DecimalOfValue | final_project/router/general.js:168 | Printing the number that canonical digit text denotes gives the same text back. |
| IntKey.NumberKeyFixedPoints | final_project/router/general.js:168-169 | A key passes through the numeric conversion unchanged exactly when it is "NaN" or canonical decimal text. Converting twice gives the same key as converting once. |
| IntKey.NumberKeyKeepsValue | final_project/router/general.js:168-169 | When `parseInt` reads digits, the converted key denotes the same number as those digits. For digit text it only strips leading zeros. |
| Routes.BookByIsbn | final_project/router/general.js:37-45 | `/isbn` finds a book exactly when the key is present, and the book found is the one stored under the key. A missing key gives "Book not found". |
| Routes.ReviewsByIsbn | final_project/router/general.js:86-94 | `/review` succeeds exactly when the key is present, and returns that book's reviews map. A missing key gives "Book not found". |
| Routes.FilterRoute | final_project/router/general.js:59-63 | A filter route succeeds exactly when some entry matches. It then sends the non-empty order-preserving selection of the matching entries. Otherwise it gives the route's not-found message. |
| Routes.BooksByAuthor | final_project/router/general.js:48-64 | `/author` succeeds exactly when some book has exactly that author. It then sends exactly those entries, in catalog order. Otherwise it gives "No books found by this author". |
| Routes.BooksByTitle | final_project/router/general.js:67-83 | `/title` succeeds exactly when some book has exactly that title. It then sends exactly those entries, in catalog order. Otherwise it gives "No books found with this title". |
| Routes.BookByIsbnOrNumber | final_project/router/general.js:168-172 | Whenever the literal key is present, the fallback lookup returns the book the plain lookup returns. It succeeds exactly when the literal key or the numeric key is present, and otherwise gives "Book not found". |
| Routes.IsbnDeferred | final_project/router/general.js:165-183 | The promise and async ISBN routes send exactly the book the fallback lookup finds (the literal key's book, otherwise the `parseInt` key's book), so they send the plain route's book whenever the plain route finds one. They send a book exactly when either key is present. Otherwise they give 404 "Book not found" with the error "Book not found". |
| Routes.AuthorDeferred | final_project/router/general.js:239-266 | The promise and async author routes respond as the plain author route does. The only difference is that a 404 also carries the rejection message as `error`. |
| Routes.TitleDeferred | final_project/router/general.js:333-358 | The promise and async title routes respond as the plain title route does. The only difference is that a 404 also carries the rejection message as `error`. |
| Routes.NonNumericIsbnReadsNaN | final_project/router/general.js:168-169 | For an ISBN that does not start with a digit, the promise and async ISBN routes send a book exactly when the literal key or the key "NaN" is present. |
| Routes.LeadingZeroScenario | final_project/router/general.js:196-197 | A book stored under "1" is found by the deferred ISBN routes as both "1" and "01". The plain route finds it only as "1". |

## Left out

- HTTP routing, the request and response objects, and the indented JSON serialization are not modelled. A response is modelled as a payload or as a status with a message.
- The timers, promise construction and async-await control flow are not modelled. The model keeps only the body that runs inside the timer and the way its result is turned into a response.
- The axios variants (`/books-axios`, `/isbn-axios`, `/author-axios`, `/title-axios`) are not modelled. They make network calls back to the server's own routes.
- The routes that list the whole catalog (`/`, `/books-promise`, `/books-async`) are not modelled. They send the catalog unchanged. `/` has no error branch. The 500 branch of `/books-promise` and `/books-async` runs only if `booksdb.js` exports a falsy value.
- The race between concurrent registrations is not modelled. Each registration is treated as one atomic step.
- `isValid` is imported but never used by this router. The contents of `booksdb.js` and `auth_users.js` are not part of this model.
- Registry.Register: request fields are modelled as absent or a string. Other JSON values follow JavaScript truthiness in the source (`0` and `false` are falsy) and are compared with `===`. They are not modelled.
- Catalog.Lookup: a key inherited from `Object.prototype` (such as "constructor" or "toString") is truthy in `books[key]` in the source. The model treats such a key as absent.
- IntKey.ParseInt: leading whitespace, a sign, a radix, and the "0x" hexadecimal prefix are not modelled. `parseInt("0x1A")` is 26 in the source, but the model reads only the "0".
- IntKey.Decimal: numbers are exact naturals here. JavaScript loses precision above 2^53 and prints numbers of 10^21 and more in exponent form, so keys with that many digits are not modelled.

=== FILE: catalog.dfy ===
/**
 The books object the router queries: its own properties in iteration order,
 each a key and a book, plus the two queries every route is built from —
 property lookup and the order-preserving filter on one field.
 */
module Catalog {
  import opened Wrappers

  /** A book record; `reviews` maps a reviewer to the review text. */
  datatype Book = Book(author: string, title: string, reviews: map<string, string>)

  /** One own property of the books object. */
  datatype Entry = Entry(key: string, book: Book)

  /** The books object as the sequence `Object.keys` walks. */
  type Catalog = seq<Entry>

  /** The two book fields the routes filter on. */
  datatype Field = Author | Title

  function FieldOf(b: Book, f: Field): string {
    match f
    case Author => b.author
    case Title => b.title
  }

  predicate Matches(e: Entry, f: Field, v: string) {
    FieldOf(e.book, f) == v
  }

  /** A property name occurs at most once, as in any JavaScript object. */
  predicate DistinctKeys(c: Catalog) {
    forall i, j :: 0 <= i < j < |c| ==> c[i].key != c[j].key
  }

  predicate HasKey(c: Catalog, k: string) {
    exists i :: 0 <= i < |c| && c[i].key == k
  }

  /** `xs` is `ys` with some entries dropped and the rest kept in order. */
  predicate IsSubseq<T(==)>(xs: seq<T>, ys: seq<T>)
    decreases |ys|
  {
    if xs == [] then true
    else if ys == [] then false
    else if xs[0] == ys[0] then IsSubseq(xs[1..], ys[1..])
    else IsSubseq(xs, ys[1..])
  }

  /**
   `books[k]`: the book stored under key `k`, or nothing. With distinct keys
   it is the one book any entry with that key holds.
   */
  function Lookup(c: Catalog, k: string): (r: Option<Book>)
    ensures r.None? <==> !HasKey(c, k)
    ensures r.Some? ==> Entry(k, r.value) in c
    ensures DistinctKeys(c) ==> forall e | e in c && e.key == k :: r == Some(e.book)
  {
    if c == [] then None
    else if c[0].key == k then Some(c[0].book)
    else
      LookupPastHead(c, k);
      Lookup(c[1..], k)
  }

  /** When the first entry has another key, the rest of the catalog has the key exactly when the whole does. */
  lemma LookupPastHead(c: Catalog, k: string)
    requires c != [] && c[0].key != k
    ensures HasKey(c[1..], k) <==> HasKey(c, k)
  {
  }

  /**
   The entries matching `f == v`, in catalog order: what the `forEach` loop
   of the author and title routes collects.
   */
  function Select(c: Catalog, f: Field, v: string): (r: Catalog)
    ensures |r| <= |c|
    ensures c != [] && Matches(c[0], f, v) ==> r != [] && r[0] == c[0]
  {
    if c == [] then []
    else if Matches(c[0], f, v) then [c[0]] + Select(c[1..], f, v)
    else Select(c[1..], f, v)
  }

  /**
   `r` keeps exactly the entries of `c` that match `f == v`, and keeps them
   in the order `c` lists them.
   */
  ghost predicate SelectionOf(r: Catalog, c: Catalog, f: Field, v: string) {
    && IsSubseq(r, c)
    && forall e :: e in r <==> e in c && Matches(e, f, v)
  }

  /** The filter's result is such an order-preserving selection. */
  lemma {:induction false} SelectIsSelection(c: Catalog, f: Field, v: string)
    ensures SelectionOf(Select(c, f, v), c, f, v)
    ensures Select(c, f, v) != [] <==> exists e :: e in c && Matches(e, f, v)
    decreases |c|
  {
    if c != [] {
      var rest := Select(c[1..], f, v);
      SelectIsSelection(c[1..], f, v);
      if Matches(c[0], f, v) {
        assert Select(c, f, v) == [c[0]] + rest;
        assert ([c[0]] + rest)[1..] == rest;
      } else {
        assert Select(c, f, v) == rest;
        assert rest == [] || rest[0] != c[0];
      }
    }
  }

  lemma {:induction false} SubseqMembers<T>(xs: seq<T>, ys: seq<T>)
    requires IsSubseq(xs, ys)
    ensures forall x :: x in xs ==> x in ys
    decreases |ys|
  {
    if xs != [] && ys != [] {
      if xs[0] == ys[0] {
        SubseqMembers(xs[1..], ys[1..]);
        assert xs == [xs[0]] + xs[1..];
      } else {
        SubseqMembers(xs, ys[1..]);
      }
    }
  }

  lemma {:induction false} SubseqKeepsDistinctKeys(xs: Catalog, ys: Catalog)
    requires IsSubseq(xs, ys) && DistinctKeys(ys)
    ensures DistinctKeys(xs)
    decreases |ys|
  {
    if xs != [] && ys != [] {
      if xs[0] == ys[0] {
        SubseqKeepsDistinctKeys(xs[1..], ys[1..]);
        SubseqMembers(xs[1..], ys[1..]);
        forall j | 0 < j < |xs| ensures xs[0].key != xs[j].key {
          assert xs[j] == xs[1..][j - 1];
          assert xs[1..][j - 1] in xs[1..];
          var n :| 0 <= n < |ys[1..]| && ys[1..][n] == xs[j];
          assert ys[n + 1] == xs[j];
        }
      } else {
        SubseqKeepsDistinctKeys(xs, ys[1..]);
      }
    }
  }

  /**
   The filter's contract pins its result down: any order-preserving selection
   that keeps exactly the matching entries of a catalog with distinct keys
   is `Select`.
   */
  lemma {:induction false} SelectIsUnique(c: Catalog, f: Field, v: string, r: Catalog)
    requires DistinctKeys(c)
    requires SelectionOf(r, c, f, v)
    ensures r == Select(c, f, v)
    decreases |c|
  {
    if c != [] {
      var rest := c[1..];
      assert DistinctKeys(rest);
      assert c[0] !in rest;
      if Matches(c[0], f, v) {
        if r[0] == c[0] {
          SubseqMembers(r[1..], rest);
          SubseqKeepsDistinctKeys(r, c);
          forall e ensures e in r[1..] <==> e in rest && Matches(e, f, v) {
            if e in rest && Matches(e, f, v) {
              assert e in r && e != r[0];
              assert r == [r[0]] + r[1..];
            }
            if e in r[1..] {
              assert e in r;
            }
          }
          SelectIsUnique(rest, f, v, r[1..]);
          assert r == [r[0]] + r[1..];
        } else {
          SubseqMembers(r, rest);
          assert false;
        }
      } else {
        if r != [] {
          assert r[0] in r;
          assert r[0] != c[0];
        }
        SubseqMembers(r, c);
        SelectIsUnique(rest, f, v, r);
      }
    }
  }

  /** Selecting from a catalog extended by one entry extends the selection by at most that entry. */
  lemma {:induction false} SelectSnoc(c: Catalog, e: Entry, f: Field, v: string)
    ensures Select(c + [e], f, v) == Select(c, f, v) + (if Matches(e, f, v) then [e] else [])
    decreases |c|
  {
    if c == [] {
      assert Select([e], f, v) == (if Matches(e, f, v) then [e] else []) + Select([], f, v);
    } else {
      assert (c + [e])[1..] == c[1..] + [e];
      SelectSnoc(c[1..], e, f, v);
    }
  }

  /**
   The route's loop: walk the keys in order and copy every matching book
   into the result object.
   */
  method CollectMatches(c: Catalog, f: Field, v: string) returns (r: Catalog)
    ensures r == Select(c, f, v)
  {
    r := [];
    var i := 0;
    while i < |c|
      invariant 0 <= i <= |c|
      invariant r == Select(c[..i], f, v)
    {
      SelectSnoc(c[..i], c[i], f, v);
      assert c[..i + 1] == c[..i] + [c[i]];
      if Matches(c[i], f, v) {
        r := r + [c[i]];
      }
      i := i + 1;
    }
    assert c[..|c|] == c;
  }

  /**
   Read as an object, the filter's result is the sub-map of the catalog that
   holds the matching books under their original keys: a key finds the same
   book in it as in the catalog when that book matches, and nothing otherwise.
   */
  lemma {:induction false} SelectIsSubMap(c: Catalog, f: Field, v: string, k: string)
    requires DistinctKeys(c)
    ensures Lookup(Select(c, f, v), k) ==
              (if Lookup(c, k).Some? && FieldOf(Lookup(c, k).value, f) == v then Lookup(c, k) else None)
    decreases |c|
  {
    if c != [] {
      assert DistinctKeys(c[1..]);
      SelectIsSubMap(c[1..], f, v, k);
      if c[0].key == k {
        assert Lookup(c[1..], k).None?;
      }
    }
  }
}

=== FILE: intkey.dfy ===
/**
 The property name `books[parseInt(isbn)]` reads: `parseInt` turns the text
 into a number, and indexing an object with a number converts it back to its
 decimal text. Restricted here to the leading run of decimal digits; text
 that does not start with a digit parses to NaN, whose property name is "NaN".
 */
module IntKey {
  import opened Wrappers

  const NaNKey := "NaN"

  predicate IsDigit(ch: char) {
    '0' <= ch <= '9'
  }

  predicate AllDigits(s: string) {
    forall i :: 0 <= i < |s| ==> IsDigit(s[i])
  }

  /** The text `String(n)` produces for a natural number: no sign, no leading zero. */
  predicate Canonical(s: string) {
    s != [] && AllDigits(s) && (s[0] == '0' ==> |s| == 1)
  }

  function DigitValue(ch: char): nat
    requires IsDigit(ch)
  {
    ch as int - '0' as int
  }

  function DigitChar(d: nat): (ch: char)
    requires d < 10
    ensures IsDigit(ch) && DigitValue(ch) == d
  {
    ('0' as int + d) as char
  }

  /** The number a digit string denotes in base ten. */
  function ValueOf(ds: string): nat
    requires AllDigits(ds)
  {
    if ds == [] then 0 else ValueOf(ds[..|ds| - 1]) * 10 + DigitValue(ds[|ds| - 1])
  }

  /** The longest prefix of `s` made of digits: the characters `parseInt` consumes. */
  function LeadingDigits(s: string): (p: string)
    ensures p <= s
    ensures AllDigits(p)
    ensures |p| < |s| ==> !IsDigit(s[|p|])
  {
    if s == [] || !IsDigit(s[0]) then [] else [s[0]] + LeadingDigits(s[1..])
  }

  /** `parseInt(s)` on the decimal digits it reads, `None` standing for NaN. */
  function ParseInt(s: string): (r: Option<nat>)
    ensures r.None? <==> s == [] || !IsDigit(s[0])
  {
    var p := LeadingDigits(s);
    if p == [] then None else Some(ValueOf(p))
  }

  /** `String(n)`: the decimal text of a natural number. */
  function Decimal(n: nat): (s: string)
    ensures Canonical(s)
    ensures n > 0 ==> s[0] != '0'
    decreases n
  {
    if n < 10 then [DigitChar(n)] else Decimal(n / 10) + [DigitChar(n % 10)]
  }

  /** `String(parseInt(s))`: the property name an object lookup by `parseInt(s)` uses. */
  function NumberKey(s: string): (k: string)
    ensures k == NaNKey || Canonical(k)
    ensures k == NaNKey <==> ParseInt(s).None?
  {
    match ParseInt(s)
    case None => NaNKey
    case Some(n) => Decimal(n)
  }

  /** Decimal text denotes the number it was printed from. */
  lemma {:induction false} DecimalValue(n: nat)
    ensures ValueOf(Decimal(n)) == n
    decreases n
  {
    if n >= 10 {
      var s := Decimal(n);
      assert s[..|s| - 1] == Decimal(n / 10);
      DecimalValue(n / 10);
    }
  }

  /** On text made only of digits, `parseInt` reads all of it. */
  lemma LeadingDigitsOfDigits(s: string)
    requires AllDigits(s)
    ensures LeadingDigits(s) == s
  {
  }

  /** Parsing the printed form of a number gives the number back. */
  lemma ParseDecimal(n: nat)
    ensures ParseInt(Decimal(n)) == Some(n)
  {
    LeadingDigitsOfDigits(Decimal(n));
    DecimalValue(n);
  }

  lemma {:induction false} NoLeadingZeroIsPositive(ds: string)
    requires AllDigits(ds) && ds != [] && ds[0] != '0'
    ensures ValueOf(ds) > 0
    decreases |ds|
  {
    if |ds| > 1 {
      NoLeadingZeroIsPositive(ds[..|ds| - 1]);
    }
  }

  /** Printing the number a canonical digit string denotes gives the string back. */
  lemma {:induction false} DecimalOfValue(ds: string)
    requires Canonical(ds)
    ensures Decimal(ValueOf(ds)) == ds
    decreases |ds|
  {
    var init := ds[..|ds| - 1];
    var last := ds[|ds| - 1];
    if |ds| > 1 {
      assert Canonical(init);
      NoLeadingZeroIsPositive(init);
      DecimalOfValue(init);
      var n := ValueOf(ds);
      assert n / 10 == ValueOf(init) && n % 10 == DigitValue(last);
      assert DigitChar(DigitValue(last)) == last;
      assert ds == init + [last];
    } else {
      assert DigitChar(DigitValue(last)) == last;
    }
  }

  /**
   A key passes through the conversion unchanged exactly when it is "NaN" or
   the canonical decimal text of a number; so applying it twice is applying
   it once.
   */
  lemma NumberKeyFixedPoints(s: string)
    ensures NumberKey(s) == s <==> s == NaNKey || Canonical(s)
    ensures NumberKey(NumberKey(s)) == NumberKey(s)
  {
    if Canonical(s) {
      LeadingDigitsOfDigits(s);
      DecimalOfValue(s);
    }
    var k := NumberKey(s);
    if k != NaNKey {
      LeadingDigitsOfDigits(k);
      DecimalOfValue(k);
    }
  }

  /**
   The converted key denotes the same number as the digits `parseInt` read:
   for digit strings it only strips leading zeros.
   */
  lemma NumberKeyKeepsValue(s: string)
    requires ParseInt(s).Some?
    ensures NumberKey(s) != NaNKey
    ensures ValueOf(NumberKey(s)) == ValueOf(LeadingDigits(s))
  {
    DecimalValue(ValueOf(LeadingDigits(s)));
  }
}

=== FILE: registry.dfy ===
/**
 The `/register` handler of the public router: a registry of users that only
 grows, and one registration step that validates a request and either rejects
 it or appends exactly one user.
 */
module Registry {
  import opened Wrappers

  /** A registered user; the password is stored exactly as it was given. */
  datatype User = User(username: string, password: string)

  /** The HTTP status and the `message` field of the JSON reply. */
  datatype Reply = Reply(status: nat, message: string)

  /** The body of a POST /register request: each field may be absent. */
  datatype Request = Request(username: Option<string>, password: Option<string>)

  const UsernameRequired := Reply(400, "Username is required")
  const PasswordRequired := Reply(400, "Password is required")
  const UsernameTaken := Reply(400, "Username already exists")
  const Registered := Reply(201, "User registered successfully")

  /** JavaScript truthiness of a body field that is a string or absent. */
  predicate Truthy(field: Option<string>) {
    field.Some? && field.value != ""
  }

  /** Some registered user has exactly this name (case-sensitive). */
  predicate NameTaken(users: seq<User>, name: string) {
    exists i :: 0 <= i < |users| && users[i].username == name
  }

  /** No two registered users share a name. */
  predicate UniqueNames(users: seq<User>) {
    forall i, j :: 0 <= i < j < |users| ==> users[i].username != users[j].username
  }

  /** Position `i` holds the first user in registry order named `name`. */
  predicate FirstNamed(users: seq<User>, name: string, i: int) {
    && 0 <= i < |users|
    && users[i].username == name
    && forall j :: 0 <= j < i ==> users[j].username != name
  }

  /**
   The registry search for a name by strict equality: the first user with
   that name, or nothing when no user has it.
   */
  function FindUser(users: seq<User>, name: string): (r: Option<User>)
    ensures r.None? <==> !NameTaken(users, name)
    ensures r.Some? ==> exists i :: FirstNamed(users, name, i) && users[i] == r.value
  {
    if users == [] then None
    else if users[0].username == name then Some(users[0])
    else
      FindUserPastHead(users, name);
      FindUser(users[1..], name)
  }

  /**
   When the first user does not carry the name, searching the rest finds the
   same name at the position one further on.
   */
  lemma FindUserPastHead(users: seq<User>, name: string)
    requires users != [] && users[0].username != name
    ensures NameTaken(users[1..], name) <==> NameTaken(users, name)
    ensures forall i :: FirstNamed(users[1..], name, i) ==> FirstNamed(users, name, i + 1)
  {
  }

  /**
   One registration: returns the reply and the registry after the request.
   Username presence is checked first, then password presence, then
   uniqueness; only a request passing all three changes the registry.
   */
  function Register(users: seq<User>, req: Request): (r: (Reply, seq<User>))
    ensures !Truthy(req.username) ==> r == (UsernameRequired, users)
    ensures Truthy(req.username) && !Truthy(req.password) ==> r == (PasswordRequired, users)
    ensures Truthy(req.username) && Truthy(req.password) && NameTaken(users, req.username.value)
            ==> r == (UsernameTaken, users)
    ensures r.0 == Registered <==>
              Truthy(req.username) && Truthy(req.password) && !NameTaken(users, req.username.value)
    ensures r.0 == Registered ==> r.1 == users + [User(req.username.value, req.password.value)]
    ensures r.0 != Registered ==> r.1 == users
    ensures UniqueNames(users) ==> UniqueNames(r.1)
  {
    if !Truthy(req.username) then (UsernameRequired, users)
    else if !Truthy(req.password) then (PasswordRequired, users)
    else if FindUser(users, req.username.value).Some? then (UsernameTaken, users)
    else (Registered, users + [User(req.username.value, req.password.value)])
  }

  /**
   Registering a name and then registering it again, with any password,
   fails as a duplicate and leaves the registry as the first call left it.
   */
  lemma RegisterTwiceFails(users: seq<User>, first: Request, password: Option<string>)
    requires Register(users, first).0 == Registered
    ensures var after := Register(users, first).1;
            Truthy(password) ==>
              Register(after, Request(first.username, password)) == (UsernameTaken, after)
  {
    var after := Register(users, first).1;
    assert after[|users|].username == first.username.value;
  }

  /**
   A sequence of registrations handled one after another, each atomic:
   the replies in request order and the final registry.
   */
  function Replay(users: seq<User>, reqs: seq<Request>): (r: (seq<Reply>, seq<User>))
    ensures |r.0| == |reqs|
    ensures users <= r.1
    ensures UniqueNames(users) ==> UniqueNames(r.1)
    decreases |reqs|
  {
    if reqs == [] then ([], users)
    else
      var (reply, next) := Register(users, reqs[0]);
      var (replies, final) := Replay(next, reqs[1..]);
      ([reply] + replies, final)
  }

  /** Once a name is registered, no later request for that name succeeds. */
  lemma {:induction false} TakenNameNeverSucceeds(users: seq<User>, reqs: seq<Request>, name: string, k: nat)
    requires NameTaken(users, name)
    requires k < |reqs| && reqs[k].username == Some(name)
    ensures Replay(users, reqs).0[k] != Registered
    decreases |reqs|
  {
    var (reply, next) := Register(users, reqs[0]);
    assert users <= next;
    var i :| 0 <= i < |users| && users[i].username == name;
    assert next[i].username == name;
    if k > 0 {
      TakenNameNeverSucceeds(next, reqs[1..], name, k - 1);
      assert Replay(users, reqs).0[k] == Replay(next, reqs[1..]).0[k - 1];
    }
  }

  /**
   However the requests are ordered, two successful registrations in one run
   never carry the same username.
   */
  lemma {:induction false} AtMostOneSuccessPerName(users: seq<User>, reqs: seq<Request>, i: nat, j: nat)
    requires i < j < |reqs|
    requires Replay(users, reqs).0[i] == Registered
    requires Replay(users, reqs).0[j] == Registered
    ensures reqs[i].username != reqs[j].username
    decreases |reqs|
  {
    var (reply, next) := Register(users, reqs[0]);
    if i == 0 {
      var name := reqs[0].username.value;
      assert next[|users|].username == name;
      if reqs[j].username == Some(name) {
        assert Replay(users, reqs).0[j] == Replay(next, reqs[1..]).0[j - 1];
        TakenNameNeverSucceeds(next, reqs[1..], name, j - 1);
      }
    } else {
      assert Replay(users, reqs).0[i] == Replay(next, reqs[1..]).0[i - 1];
      assert Replay(users, reqs).0[j] == Replay(next, reqs[1..]).0[j - 1];
      AtMostOneSuccessPerName(next, reqs[1..], i - 1, j - 1);
    }
  }
}

=== FILE: routes.dfy ===
/**
 The query routes of the public router, as functions of the catalog and the
 route parameter: the plain routes, and the promise and async-await variants
 that run the same lookup inside a timer and report through `.then`/`.catch`
 or `await`/`catch`.
 */
module Routes {
  import opened Wrappers
  import opened Catalog
  import IntKey

  /** What a query produced: the payload to send, or the not-found message. */
  datatype Outcome<T> = Found(payload: T) | NotFound(message: string)

  const BookNotFound := "Book not found"
  const NoBooksByAuthor := "No books found by this author"
  const NoBooksWithTitle := "No books found with this title"

  /** GET /isbn/:isbn — the book stored under the key, or 404. */
  function BookByIsbn(c: Catalog, isbn: string): (r: Outcome<Book>)
    ensures r.Found? <==> HasKey(c, isbn)
    ensures r.Found? ==> Entry(isbn, r.payload) in c
    ensures DistinctKeys(c) ==> forall e | e in c && e.key == isbn :: r == Found(e.book)
    ensures r.NotFound? ==> r.message == BookNotFound
  {
    match Lookup(c, isbn)
    case Some(b) => Found(b)
    case None => NotFound(BookNotFound)
  }

  /** GET /review/:isbn — the reviews of the book stored under the key, or 404. */
  function ReviewsByIsbn(c: Catalog, isbn: string): (r: Outcome<map<string, string>>)
    ensures r.Found? <==> HasKey(c, isbn)
    ensures DistinctKeys(c) ==> forall e | e in c && e.key == isbn :: r == Found(e.book.reviews)
    ensures r.NotFound? ==> r.message == BookNotFound
  {
    match Lookup(c, isbn)
    case Some(b) => Found(b.reviews)
    case None => NotFound(BookNotFound)
  }

  /** Some entry of the catalog has `f == v`. */
  predicate AnyMatch(c: Catalog, f: Field, v: string) {
    exists e :: e in c && Matches(e, f, v)
  }

  /** Both filter routes: the selection when it is non-empty, 404 otherwise. */
  function FilterRoute(c: Catalog, f: Field, v: string, missing: string): (r: Outcome<Catalog>)
    ensures r.Found? <==> AnyMatch(c, f, v)
    ensures r.Found? ==> r.payload != [] && SelectionOf(r.payload, c, f, v)
    ensures r.NotFound? ==> r.message == missing
  {
    SelectIsSelection(c, f, v);
    var selected := Select(c, f, v);
    if |selected| > 0 then Found(selected) else NotFound(missing)
  }

  /**
   GET /author/:author — every book whose author is exactly the parameter,
   under its key and in catalog order; 404 when there is none.
   */
  function BooksByAuthor(c: Catalog, author: string): (r: Outcome<Catalog>)
    ensures r.Found? <==> exists e :: e in c && e.book.author == author
    ensures r.Found? ==> forall e :: e in r.payload <==> e in c && e.book.author == author
    ensures r.Found? ==> IsSubseq(r.payload, c)
    ensures r.NotFound? ==> r.message == NoBooksByAuthor
  {
    FilterRoute(c, Author, author, NoBooksByAuthor)
  }

  /**
   GET /title/:title — every book whose title is exactly the parameter,
   under its key and in catalog order; 404 when there is none.
   */
  function BooksByTitle(c: Catalog, title: string): (r: Outcome<Catalog>)
    ensures r.Found? <==> exists e :: e in c && e.book.title == title
    ensures r.Found? ==> forall e :: e in r.payload <==> e in c && e.book.title == title
    ensures r.Found? ==> IsSubseq(r.payload, c)
    ensures r.NotFound? ==> r.message == NoBooksWithTitle
  {
    FilterRoute(c, Title, title, NoBooksWithTitle)
  }

  /**
   The ISBN lookup of the promise and async-await variants: the literal key
   first, then the key `parseInt` makes of it.
   */
  function BookByIsbnOrNumber(c: Catalog, isbn: string): (r: Outcome<Book>)
    ensures BookByIsbn(c, isbn).Found? ==> r == BookByIsbn(c, isbn)
    ensures r.Found? <==> HasKey(c, isbn) || HasKey(c, IntKey.NumberKey(isbn))
    ensures r.Found? && !HasKey(c, isbn) ==> Entry(IntKey.NumberKey(isbn), r.payload) in c
    ensures r.NotFound? ==> r.message == BookNotFound
  {
    match Lookup(c, isbn)
    case Some(b) => Found(b)
    case None =>
      match Lookup(c, IntKey.NumberKey(isbn))
      case Some(b) => Found(b)
      case None => NotFound(BookNotFound)
  }

  /** How the timer callback settles the promise. */
  datatype Settled<T> = Resolved(value: T) | Rejected(reason: string)

  /** The HTTP response: a 200 body, or a status with `message` and an optional `error` field. */
  datatype Response<T> = Send(body: T) | Status(code: nat, message: string, error: Option<string>)

  /** The callback resolves with the payload or rejects with an Error carrying the message. */
  function Settle<T>(o: Outcome<T>): Settled<T> {
    match o
    case Found(p) => Resolved(p)
    case NotFound(m) => Rejected(m)
  }

  /** A plain route's response: the payload, or 404 with only `message`. */
  function PlainResponse<T>(o: Outcome<T>): Response<T> {
    match o
    case Found(p) => Send(p)
    case NotFound(m) => Status(404, m, None)
  }

  /**
   The promise's continuations (`.then`/`.catch`, or `await` inside
   `try`/`catch`, which respond alike): send the value, or 404 with the
   route's message and the rejection's message as `error`.
   */
  function Deliver<T>(s: Settled<T>, message: string): Response<T> {
    match s
    case Resolved(v) => Send(v)
    case Rejected(reason) => Status(404, message, Some(reason))
  }

  /** A response with its diagnostic `error` field dropped. */
  function WithoutError<T>(r: Response<T>): Response<T> {
    match r
    case Send(b) => Send(b)
    case Status(code, m, _) => Status(code, m, None)
  }

  /**
   GET /isbn-promise/:isbn and /isbn-async/:isbn. Whenever the plain route
   finds the book they send the same book; beyond that they also find it
   under the numeric key; they fail only when both keys are absent.
   */
  function IsbnDeferred(c: Catalog, isbn: string): (r: Response<Book>)
    ensures WithoutError(r) == PlainResponse(BookByIsbnOrNumber(c, isbn))
    ensures BookByIsbn(c, isbn).Found? ==> r == PlainResponse(BookByIsbn(c, isbn))
    ensures r.Send? <==> HasKey(c, isbn) || HasKey(c, IntKey.NumberKey(isbn))
    ensures r.Status? ==> r == Status(404, BookNotFound, Some(BookNotFound))
  {
    Deliver(Settle(BookByIsbnOrNumber(c, isbn)), BookNotFound)
  }

  /**
   GET /author-promise/:author and /author-async/:author respond as the plain
   author route does, adding the rejection message as `error` on 404.
   */
  function AuthorDeferred(c: Catalog, author: string): (r: Response<Catalog>)
    ensures WithoutError(r) == PlainResponse(BooksByAuthor(c, author))
    ensures r.Status? ==> r.error == Some(NoBooksByAuthor)
  {
    Deliver(Settle(BooksByAuthor(c, author)), NoBooksByAuthor)
  }

  /**
   GET /title-promise/:title and /title-async/:title respond as the plain
   title route does, adding the rejection message as `error` on 404.
   */
  function TitleDeferred(c: Catalog, title: string): (r: Response<Catalog>)
    ensures WithoutError(r) == PlainResponse(BooksByTitle(c, title))
    ensures r.Status? ==> r.error == Some(NoBooksWithTitle)
  {
    Deliver(Settle(BooksByTitle(c, title)), NoBooksWithTitle)
  }

  /**
   For an ISBN that does not start with a digit, `parseInt` gives NaN, so
   the promise and async-await routes also look under the key "NaN" and
   under no other key.
   */
  lemma NonNumericIsbnReadsNaN(c: Catalog, isbn: string)
    requires isbn == [] || !IntKey.IsDigit(isbn[0])
    ensures IsbnDeferred(c, isbn).Send? <==> HasKey(c, isbn) || HasKey(c, IntKey.NaNKey)
  {
  }

  /**
   A book stored under the key "1" is found by the promise and async-await
   ISBN routes both as "1" and as "01", and by the plain route only as "1".
   */
  lemma LeadingZeroScenario(b: Book)
    ensures IsbnDeferred([Entry("1", b)], "1") == Send(b)
    ensures IsbnDeferred([Entry("1", b)], "01") == Send(b)
    ensures BookByIsbn([Entry("1", b)], "1") == Found(b)
    ensures BookByIsbn([Entry("1", b)], "01") == NotFound(BookNotFound)
  {
    var c := [Entry("1", b)];
    assert IntKey.LeadingDigits("01") == "01";
    assert IntKey.ValueOf("01") == 1;
    assert IntKey.NumberKey("01") == "1";
    assert c[0].key == "1";
    assert !HasKey(c, "01");
  }
}

=== FILE: wrappers.dfy ===
/** Optional values: a field that may be absent, a key that may be missing. */
module Wrappers {

  datatype Option<+T> = None | Some(value: T)
}
